=== FILE: README.md ===
# mango scaffolding CLI, modelled in Dafny

`mango` is a small command-line tool that scaffolds Go web projects for the
mango framework. It has two commands:

- `new <name>`:
  - checks the project name against `^[a-zA-Z-]+$`;
  - creates the folder `./<name>`;
  - downloads the template archive and extracts it into the folder, dropping
    the archive's top-level directory;
  - renames the project by overwriting one line in each of `go.mod`,
    `api/api.go` and `main.go`.
- `add <name>`:
  - checks that the route name is all letters;
  - creates the directory `<name>`;
  - writes two Go files into it, rendered from `fmt.Sprintf` templates:
    `handler.go` and `service.go`.

The model keeps all of this as pure functions over an immutable file tree.

| file | module | what it models |
|---|---|---|
| `wrappers.dfy` | `Wrappers` | `Option` |
| `strings.dfy` | `Strings` | `strings.Split` and `strings.Join` with a one-character separator, and substring occurrence |
| `names.dfy` | `Names` | `isAlphabetical`, `isAlphaOrHyphen` and `capitalizeFirst` |
| `template.dfy` | `Template` | the two route templates and the subset of `fmt.Sprintf` they use (`%[n]s` and bare `%s`) |
| `filesystem.dfy` | `FileSystem` | the file tree: a set of directories and a map from path to contents |
| `linepatch.dfy` | `LinePatch` | `replaceLineInFile`, including the `bufio.Scanner` line splitting |
| `extract.dfy` | `Extract` | the entry loop of `downloadAndExtractZip` |
| `scaffold.dfy` | `Scaffold` | `downloadAndExtractZip` and the two commands, `new` and `add` |

The "new" flow works on the tree of the destination folder, keyed by
relative paths: `""` is the folder itself. The program joins paths in two
ways:

- the extraction uses `filepath.Join(folderName, name)`;
- the patches use `folderName + "/go.mod"`.

Both name the same file, so the model uses the relative path for both.

Things outside the program's control are inputs to the model:

- Whether creating the project folder succeeds is `folderOk`.
- Whether the operating system lets `os.Mkdir` create a route directory
  (permissions, a read-only disk) is `mkdirOk`. An empty or taken name fails
  regardless of it.
- The downloaded archive is a `Fetch`: either its list of entries or a
  failure (of the request, of reading the body, or of parsing the zip).
- Each archive entry carries the `Fault` that handling it meets:
  - its payload cannot be opened;
  - its destination cannot be created;
  - the copy breaks off after some characters.
- The letter class of `unicode.IsLetter` is a parameter `isLetter`.

The line patcher comes in two versions, selected by a `Guard` value:

- `AsWritten` is the range check the program actually has;
- `Intended` is the check its 1-based write needs (see Findings).

The program runs with `AsWritten`. The renaming properties are proved for
both guards, each under the line counts that guard accepts.

The empty route name passes the letter check, because `isAlphabetical("")`
is true. `os.Mkdir("")` then fails, so `Scaffold.WriteRoute` reports
`RouteDirFailed` and nothing is written.

## Model

| member | source | states |
|---|---|---|
| Names.IsAlphabetical | mango.go:120-127 | accepts exactly the strings whose every character is a letter; the empty string is accepted |
| Names.IsAlphaOrHyphen | mango.go:129-132 | accepts exactly the non-empty strings made only of ASCII letters and '-' (a trailing newline is rejected) |
| Names.CapitalizeFirst | mango.go:20-25 | same length, the tail unchanged, an ASCII lower-case first letter moved to its upper-case counterpart, any other first character kept |
| Names.CapitalizeFirstIdempotent | mango.go:20-25 | capitalising twice is the same as capitalising once |
| Names.ProjectNameHasNoNewline | mango.go:129-132 | a name the project-name check accepts holds no line break, so it fits on one patched line |
| Strings.Split | mango.go:213 | at least one piece; exactly one piece iff the separator is absent; no piece holds the separator |
| Strings.Join | mango.go:215 | the joined text is at least one character per separator long; it is characterised by `Strings.JoinSplit`, `Strings.SplitJoin` and `Strings.JoinSnoc` |
| Strings.JoinSplit | mango.go:213-215 | joining the pieces of a split gives back the original string |
| Strings.SplitJoin | mango.go:267 | splitting a join of separator-free pieces gives back the pieces |
| Strings.SplitFirstPiece | mango.go:213-215 | a string `a + sep + rest` with no separator in `a` splits into `a` followed by the pieces of `rest` |
| Strings.JoinContainsPiece | mango.go:31-99 | every piece occurs in the joined text |
| Strings.JoinSeparators | mango.go:267 | joining newline-free lines puts a newline in the text iff there are at least two lines |
| Strings.JoinSnoc | mango.go:267 | appending a piece appends a separator and the piece |
| Template.BareVerbAfterIndex | mango.go:96-97 | after `%[n]s` and literal text, a bare `%s` prints argument n+1 |
| Template.TextsThenBare | mango.go:96-97 | literal text does not move the argument cursor, so a bare `%s` after it prints the argument under the cursor |
| Template.FillLinesAt | mango.go:31-99 | line k of the output is template line k rendered from the cursor the earlier lines leave behind |
| Template.CursorStep | mango.go:31-99 | the cursor before line k is the one line k-1 leaves behind |
| Template.Fill | mango.go:31-99 | `%[n]s` and bare `%s` never move the argument cursor past the end of the argument list; its rendering rules are characterised by `Template.BareVerbAfterIndex`, `Template.TextsThenBare` and `Template.Surrounded` |
| Template.RenderHandler | mango.go:31-77 | the handler text `s1`, characterised by `Template.HandlerHoles` |
| Template.RenderService | mango.go:79-99 | the service text `s2`, characterised by `Template.ServiceHoles` |
| Template.HandlerHoles | mango.go:29-77 | the handler text declares `package <rname>` and contains `<Rname>Handler`, `<Rname>Service` and the mount path `"/<rname>"` |
| Template.GreetingCursor | mango.go:96 | the line before the greeting leaves the cursor on argument 2 |
| Template.ServiceHoles | mango.go:79-99 | the service text declares `package <rname>`, contains `<Rname>Service`, and its getter returns `hello world <rname>!`: the bare `%s` takes the route name as given |
| Template.Surrounded | mango.go:51 | a placeholder between two literals renders its argument between them, from any cursor |
| LinePatch.ScanLines | mango.go:254-258 | lines hold no newline; no lines iff the content is empty; joining the lines with newlines, plus the final newline if there was one, gives back the content |
| LinePatch.ReplaceLine | mango.go:260-265 | the check as written: out of range iff n < 0 or n >= count; index panic iff n = 0 on a non-empty file; otherwise line n replaced and the others kept |
| LinePatch.ReplaceLineFixed | mango.go:260-265 | the intended check: never panics; replaces iff 1 <= n <= count, and then line n holds the text and the other lines are kept |
| LinePatch.PatchFile | mango.go:246-273 | taking `os.Open` to fail only on a missing path: open fails iff the path is neither a file nor a directory; rewrites iff the file's line count passes the guard; panics iff n = 0 under the written guard on a non-empty file; any other outcome leaves the tree unchanged; only the patched file changes |
| LinePatch.PatchWritesLines | mango.go:265-268 | the written file, split on newlines, is the old line list with line n replaced |
| LinePatch.ScanLinesJoin | mango.go:254-267 | scanning a join of newline-free lines gives the lines back, except that an empty last line is absorbed |
| LinePatch.PatchReadBack | mango.go:246-273 | after a rewrite, reading the file back gives the new text at line n and the old text on every other line; only an empty last line may be lost |
| LinePatch.LastLineNeverPatched | mango.go:260-265 | with the written check, patching a file's last line always reports "out of range" |
| LinePatch.OneLineFile | mango.go:260-265 | a one-line file: the written check rejects line 1; the intended check rewrites it |
| LinePatch.GuardsAgreeBelowLast | mango.go:260-265 | for 1 <= n < count both checks give the same result |
| Extract.MapName | mango.go:210-219 | without root stripping the name is kept; with it, the entry is skipped iff its name has no '/' |
| Extract.StripRoot | mango.go:213-215 | with root stripping, `root/rest` maps to `rest` |
| Extract.WrapperDirMapsToFolder | mango.go:213-215 | the archive's wrapper directory `root/` maps to the destination folder itself |
| Extract.Step | mango.go:203-237 | one entry stops the loop iff its payload cannot be opened (checked even for skipped entries), or it is a kept file that cannot be created or fully copied; a stopping entry leaves the tree as it was, except that a broken copy leaves its own file holding the prefix already copied |
| Extract.ExtractAll | mango.go:202-238 | the loop aborts iff some entry fails, and it aborts at the first such entry |
| Extract.LastWriterWins | mango.go:220-237 | after a complete run, a path holds the data of the last file entry mapped to it; paths no file entry maps to keep their contents |
| Extract.DirectoriesCreated | mango.go:220-221 | after a complete run, the directories are the old ones plus the destination of every directory entry that was created |
| Extract.AbortKeepsEarlierWrites | mango.go:202-237 | an aborted run equals a complete run over the entries before the failing one, followed by that entry's partial effect; with the contract of `Extract.Step`, every earlier write persists |
| Extract.NoTraversalCheck | mango.go:210-215 | an entry named `root/../evil` is written at `../evil`, outside the destination folder |
| Scaffold.ApplyPatches | mango.go:240-242 | each patch reports `Rewritten` iff its file exists and its line count passes the guard; none panics (the line numbers are at least 1); a file whose patch is not rewritten stays exactly as extracted; directories and every other file are unchanged |
| Scaffold.DownloadAndExtract | mango.go:175-244 | a folder failure leaves the tree unchanged; a fetch failure leaves only the created folder; an aborted extraction stops before the patches and keeps its partial tree; a complete one yields exactly the three patches applied to the extracted tree |
| Scaffold.NewApp | mango.go:152-165 | an invalid name is rejected with nothing changed; for a valid name, a folder failure changes nothing, a fetch failure leaves only the created folder, an aborted extraction keeps its partial tree, and a complete one is followed by the three patches |
| Scaffold.NewAppRenamesProject | mango.go:240-242 | after a complete extraction, each patched file whose line count passes the guard reads back `module <name>` at line 1, `"<name>/book"` at line 9, or `import "<name>/api"` at line 3 |
| Scaffold.PatchKeepsOtherFiles | mango.go:246-273 | a patch leaves the lines of every other file unchanged |
| Scaffold.PatchedLineReads | mango.go:246-273 | an accepted patch makes line n read back as the new text |
| Scaffold.GoModRenamed | mango.go:240 | after the three patches, go.mod's first line is `module <name>` |
| Scaffold.ApiRenamed | mango.go:241 | after the three patches, line 9 of api/api.go is `"<name>/book"` |
| Scaffold.MainRenamed | mango.go:242 | after the three patches, line 3 of main.go is `import "<name>/api"` |
| Scaffold.TemplateArchiveExtracts | mango.go:202-238 | an archive with a wrapper folder holding the three files extracts completely, and puts them at the top of the project folder |
| Scaffold.TemplateArchiveRenamed | mango.go:156-244 | `new <name>` on such an archive reaches the patches and renames all three files |
| Scaffold.WriteRoute | mango.go:101-115 | the route is created iff the operating system allows it and the name is non-empty and not yet taken; then exactly one directory and the two artifacts are added, and nothing else changes; otherwise the tree is unchanged |
| Scaffold.GenHandlerService | mango.go:27-118 | the route is created iff the operating system allows the directory and the name is non-empty and not taken; then the new directory holds the rendered handler and service; otherwise nothing changes |
| Scaffold.AddRoute | mango.go:141-150 | the name is rejected iff it holds a non-letter; the route is created iff the name is letter-only, non-empty and not taken and the operating system allows the directory, and then the artifacts are those of `genHandlerService`; in every other case nothing changes |
| Scaffold.RouteArtifactsNameTheRoute | mango.go:27-150 | when the operating system allows the directory, a non-empty letter-only name not yet taken creates the route; its handler and service declare `package <rname>`, name the capitalised types, and the service greets `hello world <rname>!` |
| Scaffold.ShopRoute | mango.go:141-150 | when the operating system allows the directory and "shop" is not taken, `add shop` creates `shop/handler.go`, which contains `ShopHandler`, and `shop/service.go`, which contains `hello world shop!` |

## Left out

- The network request, reading the body and zip parsing: they are replaced
  by the `Fetch` input. Decompression and the entries' mode bits are not
  modelled.
- `filepath.Join` path cleaning: destinations are the relative names
  themselves. `MkdirAll` creating missing parent directories is not modelled.
  A file whose parent directory is missing fails to open; the model expresses
  that as the entry's `CreateFails` fault.
- The `defer`red closes, which pile up until the function returns, have no
  observable effect on the tree.
- `bufio.Scanner`: stripping a trailing `\r` from each line, and the
  64 KiB line limit that stops the scan with an error.
- LinePatch.PatchFile: assumes `os.Open` fails only when the path is
  missing. An existing file the process may not read (for example one
  extracted with a mode that has no read bit) makes the program print the
  error and leave the file untouched, where the model rewrites it.
- `os.WriteFile` failures inside `replaceLineInFile` and `genHandlerService`:
  the model assumes these writes succeed.
- `log.Fatal`, console output, and the `urfave/cli` dispatch in `main`: each
  command is modelled as the function its action calls, with the first
  argument as the name.
- The template lines without a placeholder (imports, struct fields, the
  route comment) and the leading newline and trailing tab of each template:
  they are fixed text and do not depend on the route.
- `unicode.IsLetter`: its tables are not modelled. The letter class is a
  parameter.
- Names.IsAlphabetical: iterates over characters rather than decoded UTF-8
  runes; the difference matters only for multi-byte input.
- Names.CapitalizeFirst: upper-cases only ASCII a-z. Go converts the first
  byte on its own, which garbles a multi-byte first character; the model
  keeps such a first character unchanged instead.

## Findings

| source | as written | input that shows it | evidently intended | confidence | as-written member | corrected member |
|---|---|---|---|---|---|---|
| mango.go:260-265 | the guard admits `0 <= lineNumber < len(lines)`, but the write goes to `lines[lineNumber-1]` | a one-line go.mod with line number 1 reports "out of range"; line number 0 on any non-empty file indexes -1 and panics; in every file the last line can never be patched | accept `1 <= lineNumber <= len(lines)` for the 1-based write | high; not executed | LinePatch.ReplaceLine (shown by LinePatch.LastLineNeverPatched and LinePatch.OneLineFile) | LinePatch.ReplaceLineFixed |

In the model the flows take the guard as a parameter. `LinePatch.PatchFile`,
`Scaffold.ApplyPatches`, `Scaffold.NewAppRenamesProject` and
`Scaffold.TemplateArchiveRenamed` hold under both guards. With `Intended`
they cover every existing line, including the last. With `AsWritten`, which
is what the program runs, they cover only the lines before the last.

=== FILE: extract.dfy ===
/**
  The entry loop of `downloadAndExtractZip`: every archive entry, in stored
  order, is mapped to a destination path (optionally dropping the archive's
  top-level folder) and materialised as a directory or a file. The tree is
  keyed by paths relative to the destination folder; "" is the folder itself.
 */
module Extract {
  import opened Wrappers
  import opened Strings
  import opened FileSystem

  /** Where handling an entry goes wrong, if anywhere. The archive and the
      operating system decide this; the model takes it as part of the entry. */
  datatype Fault =
    | Sound                   // everything succeeds
    | OpenFails               // the entry's payload cannot be opened
    | CreateFails             // the destination cannot be created (for a directory: `MkdirAll` fails)
    | CopyFails(written: nat) // the copy breaks off after `written` characters (files only)

  /** One archive entry: its stored name, whether it is a directory, its
      payload (ignored for directories) and the fault met while handling it. */
  datatype Entry = Entry(name: string, isDir: bool, data: string, fault: Fault)

  /** The relative destination of an entry name. Without root stripping the
      name is used as it is. With it, the name is split on '/' and the first
      piece dropped; a name that splits into one piece, i.e. holds no '/', is
      skipped. The name "root/" splits into ["root", ""] and so maps to "",
      the destination folder itself. */
  function MapName(name: string, skipRoot: bool): (r: Option<string>)
    ensures !skipRoot ==> r == Some(name)
    ensures skipRoot ==> (r.None? <==> '/' !in name)
  {
    if !skipRoot then Some(name)
    else
      var parts := Split(name, '/');
      if |parts| > 1 then Some(Join(parts[1..], '/')) else None
  }

  /** With root stripping, a name made of a first segment, a '/', and a rest
      maps to the rest: everything after the first '/'. */
  lemma StripRoot(root: string, rest: string)
    requires '/' !in root
    ensures MapName(root + "/" + rest, true) == Some(rest)
  {
    SplitFirstPiece(root, rest, '/');
    assert root + "/" + rest == root + ['/'] + rest;
    assert ([root] + Split(rest, '/'))[1..] == Split(rest, '/');
    JoinSplit(rest, '/');
  }

  /** The archive's wrapper directory itself maps to the destination folder. */
  lemma WrapperDirMapsToFolder(root: string)
    requires '/' !in root
    ensures MapName(root + "/", true) == Some("")
  {
    StripRoot(root, "");
    assert root + "/" + "" == root + "/";
  }

  /** The smaller of two numbers. */
  function Min(a: nat, b: nat): nat {
    if a < b then a else b
  }

  /** Outcome of handling one entry: go on with the loop, or return. */
  datatype StepResult = Continue(fs: Fs) | Stop(fs: Fs)

  /** True when the entry is a file that the loop writes at `path`. */
  predicate Writes(e: Entry, skipRoot: bool, path: string) {
    !e.isDir && MapName(e.name, skipRoot) == Some(path)
  }

  /** No file entry is mapped to `path`. */
  ghost predicate NoneWrites(entries: seq<Entry>, skipRoot: bool, path: string) {
    forall i :: 0 <= i < |entries| ==> !Writes(entries[i], skipRoot, path)
  }

  /** Entry `i` is the last file entry mapped to `path`. */
  ghost predicate LastWriter(entries: seq<Entry>, skipRoot: bool, path: string, i: int) {
    && 0 <= i < |entries|
    && Writes(entries[i], skipRoot, path)
    && forall j :: i < j < |entries| ==> !Writes(entries[j], skipRoot, path)
  }

  /** True when the entry is a directory that the loop creates at `path`. */
  predicate MakesDir(e: Entry, skipRoot: bool, path: string) {
    e.isDir && e.fault != OpenFails && e.fault != CreateFails && MapName(e.name, skipRoot) == Some(path)
  }

  /** True when handling the entry ends the loop: its payload cannot be
      opened (checked before the skip test), or it is a file that is not
      skipped and cannot be created or copied. */
  predicate Fails(e: Entry, skipRoot: bool) {
    e.fault == OpenFails || (!e.isDir && MapName(e.name, skipRoot).Some? && e.fault != Sound)
  }

  /** One iteration of the loop body. A failing `MkdirAll` is ignored. A file
      is opened with truncation, so it replaces any earlier content; a copy
      that breaks off leaves the part already written. Returning early undoes
      nothing: everything written before stays. */
  function Step(fs: Fs, e: Entry, skipRoot: bool): (r: StepResult)
    ensures r.Stop? <==> Fails(e, skipRoot)
    ensures r.Stop? && !e.fault.CopyFails? ==> r.fs == fs
    ensures r.Stop? && e.fault.CopyFails? ==>
      && !e.isDir
      && MapName(e.name, skipRoot).Some?
      && r.fs.dirs == fs.dirs
      && r.fs.files == fs.files[MapName(e.name, skipRoot).value := e.data[..Min(e.fault.written, |e.data|)]]
  {
    if e.fault == OpenFails then Stop(fs)
    else match MapName(e.name, skipRoot)
      case None => Continue(fs)
      case Some(path) =>
        if e.isDir then
          if e.fault == CreateFails then Continue(fs) else Continue(fs.(dirs := fs.dirs + {path}))
        else match e.fault
          case Sound => Continue(fs.(files := fs.files[path := e.data]))
          case CreateFails => Stop(fs)
          case CopyFails(k) =>
            Stop(fs.(files := fs.files[path := e.data[..Min(k, |e.data|)]]))
  }

  /** How the loop ended: after the last entry, or by returning at entry `at`. */
  datatype Extraction = Completed(fs: Fs) | Aborted(fs: Fs, at: nat)

  /** The loop over the entries, in archive order. It returns at the first
      failing entry, and only there. */
  function ExtractAll(fs: Fs, entries: seq<Entry>, skipRoot: bool): (r: Extraction)
    ensures r.Aborted? <==> exists i :: 0 <= i < |entries| && Fails(entries[i], skipRoot)
    ensures r.Aborted? ==>
      && r.at < |entries|
      && Fails(entries[r.at], skipRoot)
      && forall j :: 0 <= j < r.at ==> !Fails(entries[j], skipRoot)
    decreases |entries|
  {
    if |entries| == 0 then Completed(fs)
    else match Step(fs, entries[0], skipRoot)
      case Stop(fs') => Aborted(fs', 0)
      case Continue(fs') =>
        assert forall i :: 1 <= i < |entries| ==> entries[i] == entries[1..][i - 1];
        match ExtractAll(fs', entries[1..], skipRoot)
        case Completed(f) => Completed(f)
        case Aborted(f, k) => Aborted(f, k + 1)
  }

  /** After a complete run, a path no file entry maps to keeps what it had
      before, and a path holds the payload of the LAST file entry mapped to
      it: later entries overwrite earlier ones. */
  lemma {:induction false} LastWriterWins(fs: Fs, entries: seq<Entry>, skipRoot: bool)
    requires ExtractAll(fs, entries, skipRoot).Completed?
    ensures var out := ExtractAll(fs, entries, skipRoot).fs;
      && (forall p :: NoneWrites(entries, skipRoot, p) ==>
            (p in out.files <==> p in fs.files) && (p in fs.files ==> out.files[p] == fs.files[p]))
      && (forall p, i :: LastWriter(entries, skipRoot, p, i) ==>
            p in out.files && out.files[p] == entries[i].data)
    decreases |entries|
  {
    if |entries| > 0 {
      var e := entries[0];
      var fs' := Step(fs, e, skipRoot).fs;
      var rest := entries[1..];
      LastWriterWins(fs', rest, skipRoot);
      var out := ExtractAll(fs, entries, skipRoot).fs;
      assert out == ExtractAll(fs', rest, skipRoot).fs;
      forall p, i | LastWriter(entries, skipRoot, p, i)
        ensures p in out.files && out.files[p] == entries[i].data
      {
        if i > 0 {
          assert rest[i - 1] == entries[i];
          forall j | i - 1 < j < |rest| ensures !Writes(rest[j], skipRoot, p) {
            assert rest[j] == entries[j + 1];
          }
          assert LastWriter(rest, skipRoot, p, i - 1);
        } else {
          forall j | 0 <= j < |rest| ensures !Writes(rest[j], skipRoot, p) {
            assert rest[j] == entries[j + 1];
          }
          assert NoneWrites(rest, skipRoot, p);
        }
      }
      forall p | NoneWrites(entries, skipRoot, p)
        ensures (p in out.files <==> p in fs.files) && (p in fs.files ==> out.files[p] == fs.files[p])
      {
        assert !Writes(entries[0], skipRoot, p);
        forall j | 0 <= j < |rest| ensures !Writes(rest[j], skipRoot, p) {
          assert rest[j] == entries[j + 1];
        }
        assert NoneWrites(rest, skipRoot, p);
      }
    }
  }

  /** After a complete run, the directories are those there before plus the
      destinations of the directory entries whose creation succeeded. */
  lemma {:induction false} DirectoriesCreated(fs: Fs, entries: seq<Entry>, skipRoot: bool)
    requires ExtractAll(fs, entries, skipRoot).Completed?
    ensures forall p :: p in ExtractAll(fs, entries, skipRoot).fs.dirs <==>
      p in fs.dirs || exists i :: 0 <= i < |entries| && MakesDir(entries[i], skipRoot, p)
    decreases |entries|
  {
    if |entries| > 0 {
      var rest := entries[1..];
      var fs' := Step(fs, entries[0], skipRoot).fs;
      DirectoriesCreated(fs', rest, skipRoot);
      forall p ensures (exists i :: 0 <= i < |entries| && MakesDir(entries[i], skipRoot, p)) <==>
        (MakesDir(entries[0], skipRoot, p) || exists i :: 0 <= i < |rest| && MakesDir(rest[i], skipRoot, p))
      {
        if exists i :: 0 <= i < |entries| && MakesDir(entries[i], skipRoot, p) {
          var i :| 0 <= i < |entries| && MakesDir(entries[i], skipRoot, p);
          if i > 0 {
            assert rest[i - 1] == entries[i];
          }
        }
        if exists i :: 0 <= i < |rest| && MakesDir(rest[i], skipRoot, p) {
          var i :| 0 <= i < |rest| && MakesDir(rest[i], skipRoot, p);
          assert entries[i + 1] == rest[i];
        }
      }
    }
  }

  /** An aborted run keeps everything the entries before the failing one
      did: the tree is what the complete run over that prefix produced, with
      the failing entry's partial effect on top. */
  lemma {:induction false} AbortKeepsEarlierWrites(fs: Fs, entries: seq<Entry>, skipRoot: bool)
    requires ExtractAll(fs, entries, skipRoot).Aborted?
    ensures var r := ExtractAll(fs, entries, skipRoot);
      && ExtractAll(fs, entries[..r.at], skipRoot).Completed?
      && Step(ExtractAll(fs, entries[..r.at], skipRoot).fs, entries[r.at], skipRoot) == Stop(r.fs)
    decreases |entries|
  {
    var r := ExtractAll(fs, entries, skipRoot);
    if r.at == 0 {
      assert entries[..0] == [];
    } else {
      var fs' := Step(fs, entries[0], skipRoot).fs;
      var rest := entries[1..];
      AbortKeepsEarlierWrites(fs', rest, skipRoot);
      assert ExtractAll(fs', rest, skipRoot).at == r.at - 1;
      assert entries[..r.at][1..] == rest[..r.at - 1];
      assert entries[..r.at][0] == entries[0];
      assert rest[r.at - 1] == entries[r.at];
    }
  }

  /** The loop has no path-traversal check: a name that climbs out of the
      destination folder is written outside it just the same. */
  lemma NoTraversalCheck(fs: Fs)
    ensures ExtractAll(fs, [Entry("root/../evil", false, "x", Sound)], true)
         == Completed(fs.(files := fs.files["../evil" := "x"]))
  {
    StripRoot("root", "../evil");
    assert "root" + "/" + "../evil" == "root/../evil";
    var e := Entry("root/../evil", false, "x", Sound);
    assert MapName(e.name, true) == Some("../evil");
    assert Step(fs, e, true) == Continue(fs.(files := fs.files["../evil" := "x"]));
  }
}

=== FILE: filesystem.dfy ===
/** The part of the operating system's file tree the program touches, as values. */
module FileSystem {

  /** A tree of directories and files, keyed by path. File contents are text,
      one character per byte. */
  datatype Fs = Fs(dirs: set<string>, files: map<string, string>)

  /** `fs` and `fs'` agree on every file except possibly the one at `path`,
      and on every directory. */
  ghost predicate SameExcept(fs: Fs, fs': Fs, path: string) {
    && fs'.dirs == fs.dirs
    && (forall q :: q != path ==> (q in fs'.files <==> q in fs.files))
    && (forall q :: q != path && q in fs.files ==> fs'.files[q] == fs.files[q])
  }
}

=== FILE: linepatch.dfy ===
/**
  `replaceLineInFile`: read a text file as lines, overwrite the line with a
  given 1-based number, and write the lines back joined by newlines.
 */
module LinePatch {
  import opened Strings
  import opened FileSystem

  /** The lines `bufio.Scanner` yields for `content`: the pieces between
      newlines, where a final newline ends the last line instead of starting
      an empty one, and an empty file has no lines at all. */
  function ScanLines(content: string): (lines: seq<string>)
    ensures forall i :: 0 <= i < |lines| ==> '\n' !in lines[i]
    ensures |lines| == 0 <==> content == ""
    ensures content != "" && '\n' !in content ==> lines == [content]
    ensures content == Join(lines, '\n') + (if |content| > 0 && content[|content| - 1] == '\n' then "\n" else "")
  {
    if content == "" then []
    else
      var parts := Split(content, '\n');
      JoinSplit(content, '\n');
      if parts[|parts| - 1] == "" then
        assert parts == parts[..|parts| - 1] + [""];
        JoinSnoc(parts[..|parts| - 1], "", '\n');
        parts[..|parts| - 1]
      else
        EndsWithLastPiece(parts, '\n');
        parts
  }

  /** A join ends with its last piece, so it ends with the separator only
      when that piece is empty. */
  lemma EndsWithLastPiece(parts: seq<string>, sep: char)
    requires |parts| >= 1
    requires parts[|parts| - 1] != ""
    requires sep !in parts[|parts| - 1]
    ensures |Join(parts, sep)| > 0
    ensures Join(parts, sep)[|Join(parts, sep)| - 1] != sep
  {
    var last := parts[|parts| - 1];
    if |parts| > 1 {
      assert parts == parts[..|parts| - 1] + [last];
      JoinSnoc(parts[..|parts| - 1], last, sep);
    }
    assert last[|last| - 1] in last;
  }

  /** Which line numbers the patcher accepts. */
  datatype Guard =
    | AsWritten  // the program's check, `0 <= n < len(lines)`, then a write at `n-1`
    | Intended   // every existing line, `1 <= n <= len(lines)`

  /** Outcome of replacing one line of a list. */
  datatype Replaced = Replaced(lines: seq<string>) | OutOfRange | IndexPanic

  /** `after` is `before` with line `n` (1-based) set to `text` and every
      other line as it was. */
  ghost predicate LineReplaced(before: seq<string>, after: seq<string>, n: int, text: string) {
    && 1 <= n <= |before|
    && |after| == |before|
    && after[n - 1] == text
    && forall i :: 0 <= i < |before| && i != n - 1 ==> after[i] == before[i]
  }

  /** The program's replacement step as written: the range check admits
      `0 <= n < len(lines)`, then the write goes to index `n-1`. Line 0 passes
      the check and indexes -1, which makes Go panic; the last line fails
      the check. */
  function ReplaceLine(lines: seq<string>, n: int, text: string): (r: Replaced)
    ensures r.OutOfRange? <==> n < 0 || n >= |lines|
    ensures r.IndexPanic? <==> n == 0 && |lines| > 0
    ensures r.Replaced? ==> n < |lines| && LineReplaced(lines, r.lines, n, text)
  {
    if n < 0 || n >= |lines| then OutOfRange
    else if n == 0 then IndexPanic
    else Replaced(lines[n - 1 := text])
  }

  /** The replacement step with the range check the 1-based write needs. */
  function ReplaceLineFixed(lines: seq<string>, n: int, text: string): (r: Replaced)
    ensures !r.IndexPanic?
    ensures r.Replaced? <==> 1 <= n <= |lines|
    ensures r.Replaced? ==> LineReplaced(lines, r.lines, n, text)
  {
    if 1 <= n <= |lines| then Replaced(lines[n - 1 := text]) else OutOfRange
  }

  /** The replacement step under the chosen guard. */
  function Replace(g: Guard, lines: seq<string>, n: int, text: string): Replaced {
    match g
    case AsWritten => ReplaceLine(lines, n, text)
    case Intended => ReplaceLineFixed(lines, n, text)
  }

  /** The line numbers a guard lets through to the write. */
  predicate Accepts(g: Guard, n: int, count: nat) {
    match g
    case AsWritten => 1 <= n < count
    case Intended => 1 <= n <= count
  }

  /** What `replaceLineInFile` reports. */
  datatype PatchStatus = Rewritten | OpenFailed | RangeReported | Panicked

  datatype PatchRun = PatchRun(fs: Fs, status: PatchStatus)

  /** `replaceLineInFile(path, n, text)` against the tree `fs`. A missing
      path cannot be opened. A directory opens but yields no lines, so any
      number is out of range. Only an accepted number leads to a write, which
      replaces the whole file by the patched lines joined with newlines. */
  function PatchFile(g: Guard, fs: Fs, path: string, n: int, text: string): (r: PatchRun)
    ensures r.status == OpenFailed <==> path !in fs.files && path !in fs.dirs
    ensures r.status == Rewritten <==> path in fs.files && Accepts(g, n, |ScanLines(fs.files[path])|)
    ensures r.status == Panicked <==>
      g == AsWritten && n == 0 && path in fs.files && |ScanLines(fs.files[path])| > 0
    ensures r.status != Rewritten ==> r.fs == fs
    ensures SameExcept(fs, r.fs, path)
  {
    if path !in fs.files then
      if path in fs.dirs then PatchRun(fs, RangeReported) else PatchRun(fs, OpenFailed)
    else
      var lines := ScanLines(fs.files[path]);
      match Replace(g, lines, n, text)
      case OutOfRange => PatchRun(fs, RangeReported)
      case IndexPanic => PatchRun(fs, Panicked)
      case Replaced(after) =>
        PatchRun(fs.(files := fs.files[path := Join(after, '\n')]), Rewritten)
  }

  /** The text written is the patched line list joined by newlines: splitting
      it on newlines gives back exactly the old lines with line `n` replaced. */
  lemma PatchWritesLines(g: Guard, fs: Fs, path: string, n: int, text: string)
    requires '\n' !in text
    requires PatchFile(g, fs, path, n, text).status == Rewritten
    ensures path in fs.files && path in PatchFile(g, fs, path, n, text).fs.files
    ensures LineReplaced(ScanLines(fs.files[path]),
                         Split(PatchFile(g, fs, path, n, text).fs.files[path], '\n'), n, text)
  {
    var written := Replace(g, ScanLines(fs.files[path]), n, text).lines;
    SplitJoin(written, '\n');
  }

  /** Reading a file of joined lines back gives the lines, except that an
      empty last line is absorbed as a final newline. */
  lemma ScanLinesJoin(lines: seq<string>)
    requires forall i :: 0 <= i < |lines| ==> '\n' !in lines[i]
    ensures ScanLines(Join(lines, '\n')) ==
      if |lines| > 0 && lines[|lines| - 1] == "" then lines[..|lines| - 1] else lines
  {
    if |lines| == 1 {
      ScanLinesJoinOne(lines[0]);
      assert lines == [lines[0]];
    } else if |lines| > 1 {
      ScanLinesJoinMany(lines);
    }
  }

  /** A single line, joined, is itself and reads back as itself unless empty. */
  lemma ScanLinesJoinOne(line: string)
    requires '\n' !in line
    ensures ScanLines(Join([line], '\n')) == if line == "" then [] else [line]
  {
    assert Join([line], '\n') == line;
  }

  /** Several lines, joined, read back as the lines, an empty last one aside. */
  lemma ScanLinesJoinMany(lines: seq<string>)
    requires |lines| > 1
    requires forall i :: 0 <= i < |lines| ==> '\n' !in lines[i]
    ensures ScanLines(Join(lines, '\n')) ==
      if lines[|lines| - 1] == "" then lines[..|lines| - 1] else lines
  {
    var content := Join(lines, '\n');
    assert content == lines[0] + ['\n'] + Join(lines[1..], '\n');
    assert content != "";
    SplitJoin(lines, '\n');
  }

  /** After a rewrite, reading the file again yields the replacement at line
      `n` and every other line as before; only an empty last line may be
      absorbed, because the written text carries no final newline. */
  lemma PatchReadBack(g: Guard, fs: Fs, path: string, n: int, text: string)
    requires '\n' !in text && text != ""
    requires PatchFile(g, fs, path, n, text).status == Rewritten
    ensures path in fs.files && path in PatchFile(g, fs, path, n, text).fs.files
    ensures var before := ScanLines(fs.files[path]);
            var after := ScanLines(PatchFile(g, fs, path, n, text).fs.files[path]);
            && n - 1 < |after|
            && after[n - 1] == text
            && |before| - 1 <= |after| <= |before|
            && forall i :: 0 <= i < |after| && i != n - 1 ==> after[i] == before[i]
  {
    var before := ScanLines(fs.files[path]);
    var written := Replace(g, before, n, text).lines;
    assert PatchFile(g, fs, path, n, text).fs.files[path] == Join(written, '\n');
    ScanLinesJoin(written);
  }

  /** The program's patcher never changes the last line of a file: for the
      last line number the range check fails, whatever the file holds. */
  lemma LastLineNeverPatched(fs: Fs, path: string, text: string)
    requires path in fs.files
    ensures var count := |ScanLines(fs.files[path])|;
            PatchFile(AsWritten, fs, path, count, text).status == RangeReported
  {
  }

  /** A one-line file shows the difference: the program rejects line 1,
      the intended check rewrites it. */
  lemma OneLineFile(fs: Fs, path: string)
    requires fs.files == map[path := "module old"]
    ensures PatchFile(AsWritten, fs, path, 1, "module new").status == RangeReported
    ensures PatchFile(Intended, fs, path, 1, "module new").fs.files[path] == "module new"
  {
    assert ScanLines("module old") == ["module old"];
  }

  /** Below the last line both guards behave the same. */
  lemma GuardsAgreeBelowLast(lines: seq<string>, n: int, text: string)
    requires 1 <= n < |lines|
    ensures ReplaceLine(lines, n, text) == ReplaceLineFixed(lines, n, text)
  {
  }
}

=== FILE: names.dfy ===
/**
  The two identifier validators of the command-line flows (`isAlphabetical`
  for route names, `isAlphaOrHyphen` for project names) and `capitalizeFirst`,
  which turns a route name into the type-name prefix used by the templates.
 */
module Names {

  /** `isAlphabetical`: every code point of `s` is a letter. Go's
      `unicode.IsLetter` tables are not modelled, so the letter class is a
      parameter. The loop returns false at the first non-letter and true
      otherwise, so the empty string is accepted. */
  function IsAlphabetical(s: string, isLetter: char -> bool): (ok: bool)
    ensures ok <==> forall i :: 0 <= i < |s| ==> isLetter(s[i])
    decreases |s|
  {
    if |s| == 0 then true
    else if !isLetter(s[0]) then false
    else
      assert forall i :: 1 <= i < |s| ==> s[i] == s[1..][i - 1];
      IsAlphabetical(s[1..], isLetter)
  }

  /** The character class `[a-zA-Z-]` of the project-name pattern. */
  predicate InNameClass(c: char) {
    'a' <= c <= 'z' || 'A' <= c <= 'Z' || c == '-'
  }

  /** `isAlphaOrHyphen`: the whole string matches `^[a-zA-Z-]+$`, i.e. one
      class character followed by any number more. Go's `$` without the
      multi-line flag matches only at the very end, so a trailing newline is
      rejected like any other character outside the class. */
  function IsAlphaOrHyphen(s: string): (ok: bool)
    ensures ok <==> |s| > 0 && forall i :: 0 <= i < |s| ==> InNameClass(s[i])
    decreases |s|
  {
    if |s| == 0 then false
    else if !InNameClass(s[0]) then false
    else if |s| == 1 then true
    else
      assert forall i :: 1 <= i < |s| ==> s[i] == s[1..][i - 1];
      IsAlphaOrHyphen(s[1..])
  }

  /** True of the ASCII lower-case letters, the only characters the model upper-cases. */
  predicate IsAsciiLower(c: char) {
    'a' <= c <= 'z'
  }

  /** `capitalizeFirst`: the first character upper-cased, the rest untouched.
      The empty string is returned as it is. */
  function CapitalizeFirst(s: string): (r: string)
    ensures |r| == |s|
    ensures |s| > 0 ==> r[1..] == s[1..]
    ensures |s| > 0 && IsAsciiLower(s[0]) ==> 'A' <= r[0] <= 'Z' && r[0] as int - s[0] as int == 'A' as int - 'a' as int
    ensures |s| > 0 && !IsAsciiLower(s[0]) ==> r[0] == s[0]
  {
    if |s| == 0 then s
    else if IsAsciiLower(s[0]) then [(s[0] as int - 32) as char] + s[1..]
    else s
  }

  /** Capitalising an already capitalised name changes nothing. */
  lemma CapitalizeFirstIdempotent(s: string)
    ensures CapitalizeFirst(CapitalizeFirst(s)) == CapitalizeFirst(s)
  {
  }

  /** A name accepted by the project-name validator holds no line break,
      so it can be patched into a single line. */
  lemma ProjectNameHasNoNewline(s: string)
    requires IsAlphaOrHyphen(s)
    ensures '\n' !in s
  {
  }
}

=== FILE: scaffold.dfy ===
/**
  The two flows built on the pieces above: `new <name>` validates a project
  name, creates the destination folder, extracts the fetched template archive
  into it with root stripping and renames the project by three line patches;
  `add <name>` validates a route name and writes the handler and service
  artifacts into a fresh directory.
 */
module Scaffold {
  import opened Strings
  import opened FileSystem
  import opened LinePatch
  import opened Extract
  import Names
  import Template

  /** The downloaded archive, already read and parsed into its entries, or
      the failure of the request, of reading the body, or of parsing it. */
  datatype Fetch = Fetched(entries: seq<Entry>) | FetchFailed

  /** Where the "new app" flow stopped, with the three patch reports when it
      got that far. */
  datatype AppStage =
    | InvalidName
    | FolderFailed
    | DownloadFailed
    | ExtractAborted(at: nat)
    | PatchesApplied(goMod: PatchStatus, api: PatchStatus, main: PatchStatus)

  datatype AppRun = AppRun(fs: Fs, stage: AppStage)

  /** The three fixed patches of the extracted project, relative to its
      folder: the module line of go.mod, the import of the book package in
      api/api.go, and the import of the api package in main.go. */
  const GoModPath := "go.mod"
  const ApiPath := "api/api.go"
  const MainPath := "main.go"
  const GoModLine := 1
  const ApiLine := 9
  const MainLine := 3

  function GoModText(name: string): string { "module " + name }
  function ApiText(name: string): string { "\"" + name + "/book\"" }
  function MainText(name: string): string { "import \"" + name + "/api\"" }

  /** The file at `path` is the same in both trees, present or absent. */
  predicate Untouched(fs: Fs, fs': Fs, path: string) {
    && (path in fs'.files <==> path in fs.files)
    && (path in fs.files ==> fs'.files[path] == fs.files[path])
  }

  /** The three patches, one after the other; each reports its own failure
      and the next one runs regardless. None can panic, since every line
      number is at least 1, and nothing outside the three files changes. */
  function ApplyPatches(g: Guard, fs: Fs, name: string): (r: AppRun)
    ensures r.stage.PatchesApplied?
    ensures r.stage.goMod != Panicked && r.stage.api != Panicked && r.stage.main != Panicked
    ensures r.stage.goMod == Rewritten <==> GoModPath in fs.files && Accepts(g, GoModLine, |ScanLines(fs.files[GoModPath])|)
    ensures r.stage.api == Rewritten <==> ApiPath in fs.files && Accepts(g, ApiLine, |ScanLines(fs.files[ApiPath])|)
    ensures r.stage.main == Rewritten <==> MainPath in fs.files && Accepts(g, MainLine, |ScanLines(fs.files[MainPath])|)
    ensures r.stage.goMod != Rewritten ==> Untouched(fs, r.fs, GoModPath)
    ensures r.stage.api != Rewritten ==> Untouched(fs, r.fs, ApiPath)
    ensures r.stage.main != Rewritten ==> Untouched(fs, r.fs, MainPath)
    ensures r.fs.dirs == fs.dirs
    ensures forall q :: q != GoModPath && q != ApiPath && q != MainPath ==>
      (q in r.fs.files <==> q in fs.files) && (q in fs.files ==> r.fs.files[q] == fs.files[q])
  {
    var p1 := PatchFile(g, fs, GoModPath, GoModLine, GoModText(name));
    var p2 := PatchFile(g, p1.fs, ApiPath, ApiLine, ApiText(name));
    var p3 := PatchFile(g, p2.fs, MainPath, MainLine, MainText(name));
    AppRun(p3.fs, PatchesApplied(p1.status, p2.status, p3.status))
  }

  /** `downloadAndExtractZip(url, folder, skipRoot, name)` against the tree
      of the destination folder. Creating the folder, fetching and parsing
      the archive each end the flow on failure; an extraction that returns
      early leaves what it wrote and skips all three patches. */
  function DownloadAndExtract(g: Guard, fs: Fs, skipRoot: bool, name: string, folderOk: bool, fetch: Fetch): (r: AppRun)
    ensures r.stage == FolderFailed <==> !folderOk
    ensures r.stage == FolderFailed ==> r.fs == fs
    ensures r.stage == DownloadFailed <==> folderOk && fetch.FetchFailed?
    ensures r.stage == DownloadFailed ==> r.fs == fs.(dirs := fs.dirs + {""})
    ensures folderOk && fetch.Fetched? ==>
      var x := ExtractAll(fs.(dirs := fs.dirs + {""}), fetch.entries, skipRoot);
      && (x.Aborted? <==> r.stage.ExtractAborted?)
      && (x.Aborted? ==> r.fs == x.fs && r.stage.at == x.at)
      && (x.Completed? <==> r.stage.PatchesApplied?)
      && (x.Completed? ==> r == ApplyPatches(g, x.fs, name))
  {
    if !folderOk then AppRun(fs, FolderFailed)
    else
      var fs0 := fs.(dirs := fs.dirs + {""});
      match fetch
      case FetchFailed => AppRun(fs0, DownloadFailed)
      case Fetched(entries) =>
        match ExtractAll(fs0, entries, skipRoot)
        case Aborted(f, k) => AppRun(f, ExtractAborted(k))
        case Completed(f) => ApplyPatches(g, f, name)
  }

  /** The `new <name>` command: a name outside `^[a-zA-Z-]+$` is reported and
      nothing happens; otherwise the template is extracted with its top-level
      folder stripped and patched. */
  function NewApp(g: Guard, fs: Fs, name: string, folderOk: bool, fetch: Fetch): (r: AppRun)
    ensures r.stage == InvalidName <==> !Names.IsAlphaOrHyphen(name)
    ensures r.stage == InvalidName ==> r.fs == fs
    ensures r.stage == FolderFailed <==> Names.IsAlphaOrHyphen(name) && !folderOk
    ensures r.stage == FolderFailed ==> r.fs == fs
    ensures r.stage == DownloadFailed <==> Names.IsAlphaOrHyphen(name) && folderOk && fetch.FetchFailed?
    ensures r.stage == DownloadFailed ==> r.fs == fs.(dirs := fs.dirs + {""})
    ensures Names.IsAlphaOrHyphen(name) && folderOk && fetch.Fetched? ==>
      var x := ExtractAll(fs.(dirs := fs.dirs + {""}), fetch.entries, true);
      && (x.Aborted? ==> r == AppRun(x.fs, ExtractAborted(x.at)))
      && (x.Completed? ==> r == ApplyPatches(g, x.fs, name))
  {
    if Names.IsAlphaOrHyphen(name) then DownloadAndExtract(g, fs, true, name, folderOk, fetch)
    else AppRun(fs, InvalidName)
  }

  /** The lines of file `path` in `fs`, or none when it is absent. */
  function LinesOf(fs: Fs, path: string): seq<string> {
    if path in fs.files then ScanLines(fs.files[path]) else []
  }

  /** After a complete extraction, each of the three files whose line count
      lets the guard through carries the new project name on its patched
      line when read back. */
  lemma NewAppRenamesProject(g: Guard, fs: Fs, name: string, entries: seq<Entry>)
    requires Names.IsAlphaOrHyphen(name)
    requires ExtractAll(fs.(dirs := fs.dirs + {""}), entries, true).Completed?
    ensures var f := ExtractAll(fs.(dirs := fs.dirs + {""}), entries, true).fs;
            var out := NewApp(g, fs, name, true, Fetched(entries)).fs;
      && (Accepts(g, GoModLine, |LinesOf(f, GoModPath)|) ==>
            0 < |LinesOf(out, GoModPath)| && LinesOf(out, GoModPath)[0] == "module " + name)
      && (Accepts(g, ApiLine, |LinesOf(f, ApiPath)|) ==>
            8 < |LinesOf(out, ApiPath)| && LinesOf(out, ApiPath)[8] == "\"" + name + "/book\"")
      && (Accepts(g, MainLine, |LinesOf(f, MainPath)|) ==>
            2 < |LinesOf(out, MainPath)| && LinesOf(out, MainPath)[2] == "import \"" + name + "/api\"")
  {
    var f := ExtractAll(fs.(dirs := fs.dirs + {""}), entries, true).fs;
    assert NewApp(g, fs, name, true, Fetched(entries)).fs == ApplyPatches(g, f, name).fs;
    Names.ProjectNameHasNoNewline(name);
    if Accepts(g, GoModLine, |LinesOf(f, GoModPath)|) {
      GoModRenamed(g, f, name);
    }
    if Accepts(g, ApiLine, |LinesOf(f, ApiPath)|) {
      ApiRenamed(g, f, name);
    }
    if Accepts(g, MainLine, |LinesOf(f, MainPath)|) {
      MainRenamed(g, f, name);
    }
  }

  /** A patch leaves the lines of every other file as they were. */
  lemma PatchKeepsOtherFiles(g: Guard, fs: Fs, path: string, n: int, text: string, q: string)
    requires q != path
    ensures LinesOf(PatchFile(g, fs, path, n, text).fs, q) == LinesOf(fs, q)
  {
  }

  /** An accepted patch makes line `n` read back as the replacement. */
  lemma PatchedLineReads(g: Guard, fs: Fs, path: string, n: int, text: string)
    requires '\n' !in text && text != ""
    requires Accepts(g, n, |LinesOf(fs, path)|)
    ensures n - 1 < |LinesOf(PatchFile(g, fs, path, n, text).fs, path)|
    ensures LinesOf(PatchFile(g, fs, path, n, text).fs, path)[n - 1] == text
  {
    PatchReadBack(g, fs, path, n, text);
  }

  /** The module line of go.mod after the patches. */
  lemma GoModRenamed(g: Guard, f: Fs, name: string)
    requires '\n' !in name
    requires Accepts(g, GoModLine, |LinesOf(f, GoModPath)|)
    ensures 0 < |LinesOf(ApplyPatches(g, f, name).fs, GoModPath)|
    ensures LinesOf(ApplyPatches(g, f, name).fs, GoModPath)[0] == GoModText(name)
  {
    var p1 := PatchFile(g, f, GoModPath, GoModLine, GoModText(name));
    var p2 := PatchFile(g, p1.fs, ApiPath, ApiLine, ApiText(name));
    var p3 := PatchFile(g, p2.fs, MainPath, MainLine, MainText(name));
    PatchedLineReads(g, f, GoModPath, GoModLine, GoModText(name));
    PatchKeepsOtherFiles(g, p1.fs, ApiPath, ApiLine, ApiText(name), GoModPath);
    PatchKeepsOtherFiles(g, p2.fs, MainPath, MainLine, MainText(name), GoModPath);
  }

  /** The import line of api/api.go after the patches. */
  lemma ApiRenamed(g: Guard, f: Fs, name: string)
    requires '\n' !in name
    requires Accepts(g, ApiLine, |LinesOf(f, ApiPath)|)
    ensures 8 < |LinesOf(ApplyPatches(g, f, name).fs, ApiPath)|
    ensures LinesOf(ApplyPatches(g, f, name).fs, ApiPath)[8] == ApiText(name)
  {
    var p1 := PatchFile(g, f, GoModPath, GoModLine, GoModText(name));
    var p2 := PatchFile(g, p1.fs, ApiPath, ApiLine, ApiText(name));
    PatchKeepsOtherFiles(g, f, GoModPath, GoModLine, GoModText(name), ApiPath);
    PatchedLineReads(g, p1.fs, ApiPath, ApiLine, ApiText(name));
    PatchKeepsOtherFiles(g, p2.fs, MainPath, MainLine, MainText(name), ApiPath);
  }

  /** The import line of main.go after the patches. */
  lemma MainRenamed(g: Guard, f: Fs, name: string)
    requires '\n' !in name
    requires Accepts(g, MainLine, |LinesOf(f, MainPath)|)
    ensures 2 < |LinesOf(ApplyPatches(g, f, name).fs, MainPath)|
    ensures LinesOf(ApplyPatches(g, f, name).fs, MainPath)[2] == MainText(name)
  {
    var p1 := PatchFile(g, f, GoModPath, GoModLine, GoModText(name));
    var p2 := PatchFile(g, p1.fs, ApiPath, ApiLine, ApiText(name));
    PatchKeepsOtherFiles(g, f, GoModPath, GoModLine, GoModText(name), MainPath);
    PatchKeepsOtherFiles(g, p1.fs, ApiPath, ApiLine, ApiText(name), MainPath);
    PatchedLineReads(g, p2.fs, MainPath, MainLine, MainText(name));
  }

  /** The template archive as a source host serves it: a wrapper folder
      `root/` holding go.mod, api/api.go and main.go. */
  function TemplateArchive(root: string, goMod: string, api: string, main: string): seq<Entry> {
    [ Entry(root + "/" + "", true, "", Sound),
      Entry(root + "/" + GoModPath, false, goMod, Sound),
      Entry(root + "/" + "api/", true, "", Sound),
      Entry(root + "/" + ApiPath, false, api, Sound),
      Entry(root + "/" + MainPath, false, main, Sound) ]
  }

  /** Extracting such an archive with root stripping completes and puts the
      three files at the top of the destination folder. */
  lemma TemplateArchiveExtracts(fs: Fs, root: string, goMod: string, api: string, main: string)
    requires '/' !in root
    ensures var x := ExtractAll(fs, TemplateArchive(root, goMod, api, main), true);
      && x.Completed?
      && LinesOf(x.fs, GoModPath) == ScanLines(goMod)
      && LinesOf(x.fs, ApiPath) == ScanLines(api)
      && LinesOf(x.fs, MainPath) == ScanLines(main)
  {
    var entries := TemplateArchive(root, goMod, api, main);
    StripRoot(root, GoModPath);
    StripRoot(root, ApiPath);
    StripRoot(root, MainPath);
    assert forall i :: 0 <= i < |entries| ==> !Fails(entries[i], true);
    assert LastWriter(entries, true, GoModPath, 1);
    assert LastWriter(entries, true, ApiPath, 3);
    assert LastWriter(entries, true, MainPath, 4);
    LastWriterWins(fs, entries, true);
  }

  /** Creating project `name` from such an archive renames it: each of the
      three files carries the new name on its patched line. */
  lemma TemplateArchiveRenamed(g: Guard, fs: Fs, name: string, root: string, goMod: string, api: string, main: string)
    requires Names.IsAlphaOrHyphen(name)
    requires '/' !in root
    requires Accepts(g, GoModLine, |ScanLines(goMod)|)
    requires Accepts(g, ApiLine, |ScanLines(api)|)
    requires Accepts(g, MainLine, |ScanLines(main)|)
    ensures var run := NewApp(g, fs, name, true, Fetched(TemplateArchive(root, goMod, api, main)));
      && run.stage.PatchesApplied?
      && 0 < |LinesOf(run.fs, GoModPath)| && LinesOf(run.fs, GoModPath)[0] == "module " + name
      && 8 < |LinesOf(run.fs, ApiPath)| && LinesOf(run.fs, ApiPath)[8] == "\"" + name + "/book\""
      && 2 < |LinesOf(run.fs, MainPath)| && LinesOf(run.fs, MainPath)[2] == "import \"" + name + "/api\""
  {
    TemplateArchiveExtracts(fs.(dirs := fs.dirs + {""}), root, goMod, api, main);
    NewAppRenamesProject(g, fs, name, TemplateArchive(root, goMod, api, main));
  }

  /** Where the "add route" flow stopped. */
  datatype RouteStage = RouteRejected | RouteDirFailed | RouteCreated

  datatype RouteRun = RouteRun(fs: Fs, stage: RouteStage)

  /** The two artifact paths of a route. */
  function HandlerPath(rname: string): string { rname + "/handler.go" }
  function ServicePath(rname: string): string { rname + "/service.go" }

  /** The effects of `genHandlerService(rname)` against the working
      directory, for given artifact texts. `os.Mkdir` fails when the name is
      empty or already taken, or when the operating system refuses for
      another reason (permissions, a read-only disk), which `mkdirOk` being
      false stands for; the failure ends the process. Otherwise the
      directory is created and both artifacts written in it. */
  function WriteRoute(fs: Fs, rname: string, mkdirOk: bool, handler: string, service: string): (r: RouteRun)
    ensures r.stage != RouteRejected
    ensures r.stage == RouteCreated <==> mkdirOk && rname != "" && rname !in fs.dirs && rname !in fs.files
    ensures r.stage != RouteCreated ==> r.fs == fs
    ensures r.stage == RouteCreated ==>
      && r.fs.dirs == fs.dirs + {rname}
      && HandlerPath(rname) in r.fs.files && r.fs.files[HandlerPath(rname)] == handler
      && ServicePath(rname) in r.fs.files && r.fs.files[ServicePath(rname)] == service
      && forall q :: q != HandlerPath(rname) && q != ServicePath(rname) ==>
           (q in r.fs.files <==> q in fs.files) && (q in fs.files ==> r.fs.files[q] == fs.files[q])
  {
    if !mkdirOk || rname == "" || rname in fs.dirs || rname in fs.files then RouteRun(fs, RouteDirFailed)
    else
      assert HandlerPath(rname) != ServicePath(rname) by {
        assert HandlerPath(rname)[|rname| + 1] == 'h';
        assert ServicePath(rname)[|rname| + 1] == 's';
      }
      RouteRun(Fs(fs.dirs + {rname}, fs.files[HandlerPath(rname) := handler][ServicePath(rname) := service]), RouteCreated)
  }

  /** `genHandlerService(rname)`: both templates rendered for the route and
      written into its new directory. */
  function GenHandlerService(fs: Fs, rname: string, mkdirOk: bool): (r: RouteRun)
    ensures r.stage == RouteCreated <==> mkdirOk && rname != "" && rname !in fs.dirs && rname !in fs.files
    ensures r.stage != RouteCreated ==> r.fs == fs
    ensures r.stage == RouteCreated ==>
      && r.fs.dirs == fs.dirs + {rname}
      && HandlerPath(rname) in r.fs.files && r.fs.files[HandlerPath(rname)] == Template.RenderHandler(rname)
      && ServicePath(rname) in r.fs.files && r.fs.files[ServicePath(rname)] == Template.RenderService(rname)
  {
    WriteRoute(fs, rname, mkdirOk, Template.RenderHandler(rname), Template.RenderService(rname))
  }

  /** The `add <name>` command: a name with a non-letter is reported and
      nothing happens. The empty name passes the letter check and is then
      refused by the directory creation. */
  function AddRoute(fs: Fs, rname: string, isLetter: char -> bool, mkdirOk: bool): (r: RouteRun)
    ensures r.stage == RouteRejected <==> !Names.IsAlphabetical(rname, isLetter)
    ensures r.stage == RouteRejected ==> r.fs == fs
    ensures r.stage == RouteCreated <==>
      Names.IsAlphabetical(rname, isLetter) && mkdirOk && rname != "" && rname !in fs.dirs && rname !in fs.files
    ensures r.stage != RouteCreated ==> r.fs == fs
    ensures r.stage == RouteCreated ==> r == GenHandlerService(fs, rname, true)
  {
    if Names.IsAlphabetical(rname, isLetter) then GenHandlerService(fs, rname, mkdirOk)
    else RouteRun(fs, RouteRejected)
  }

  /** A non-empty letter-only name that is not yet taken creates the route.
      Its handler declares package `rname` and the types named after the
      capitalised route, and its service returns "hello world <rname>!". */
  lemma RouteArtifactsNameTheRoute(fs: Fs, rname: string, isLetter: char -> bool)
    requires Names.IsAlphabetical(rname, isLetter)
    requires rname != "" && rname !in fs.dirs && rname !in fs.files
    ensures AddRoute(fs, rname, isLetter, true).stage == RouteCreated
    ensures var files := AddRoute(fs, rname, isLetter, true).fs.files;
      && HandlerPath(rname) in files && ServicePath(rname) in files
      && Contains(files[HandlerPath(rname)], "package " + rname)
      && Contains(files[HandlerPath(rname)], Names.CapitalizeFirst(rname) + "Handler")
      && Contains(files[ServicePath(rname)], "package " + rname)
      && Contains(files[ServicePath(rname)], Names.CapitalizeFirst(rname) + "Service")
      && Contains(files[ServicePath(rname)], "hello world " + rname + "!")
  {
    Template.HandlerHoles(rname);
    Template.ServiceHoles(rname);
  }

  /** The route "shop": a directory "shop" holding a handler for type
      `ShopHandler` and a service greeting "hello world shop!". The name is
      bound by the precondition rather than written as a literal argument,
      so that the verifier does not evaluate both templates symbolically. */
  lemma ShopRoute(fs: Fs, isLetter: char -> bool, rname: string)
    requires rname == "shop"
    requires isLetter('s') && isLetter('h') && isLetter('o') && isLetter('p')
    requires rname !in fs.dirs && rname !in fs.files
    ensures AddRoute(fs, rname, isLetter, true).stage == RouteCreated
    ensures rname in AddRoute(fs, rname, isLetter, true).fs.dirs
    ensures var files := AddRoute(fs, rname, isLetter, true).fs.files;
      && "shop/handler.go" in files && "shop/service.go" in files
      && Contains(files["shop/handler.go"], "ShopHandler")
      && Contains(files["shop/service.go"], "hello world shop!")
  {
    assert Names.IsAlphabetical(rname, isLetter);
    assert Names.CapitalizeFirst(rname) == "Shop";
    assert HandlerPath(rname) == "shop/handler.go";
    assert ServicePath(rname) == "shop/service.go";
    assert "Shop" + "Handler" == "ShopHandler";
    assert "hello world " + rname + "!" == "hello world shop!";
    RouteArtifactsNameTheRoute(fs, rname, isLetter);
  }
}

=== FILE: strings.dfy ===
/**
  The two string primitives of Go's `strings` package the program relies on,
  `strings.Split` and `strings.Join`, restricted to a one-character separator,
  together with their round-trip laws and a substring predicate.
 */
module Strings {

  /** `strings.Split(s, string(sep))`: the pieces between occurrences of `sep`.
      There is always one more piece than there are separators, so the empty
      string splits to `[""]`. */
  function Split(s: string, sep: char): (parts: seq<string>)
    ensures |parts| >= 1
    ensures |parts| == 1 <==> sep !in s
    ensures forall i :: 0 <= i < |parts| ==> sep !in parts[i]
    decreases |s|
  {
    if |s| == 0 then [""]
    else
      assert s == [s[0]] + s[1..];
      var rest := Split(s[1..], sep);
      if s[0] == sep then [""] + rest
      else [[s[0]] + rest[0]] + rest[1..]
  }

  /** `strings.Join(parts, string(sep))`: the pieces with `sep` between neighbours. */
  function Join(parts: seq<string>, sep: char): (r: string)
    ensures |r| >= |parts| - 1
    decreases |parts|
  {
    if |parts| == 0 then ""
    else if |parts| == 1 then parts[0]
    else parts[0] + [sep] + Join(parts[1..], sep)
  }

  /** Joining separator-free pieces puts a separator in the result only
      between pieces: none for a single piece or none at all. */
  lemma {:induction false} JoinSeparators(parts: seq<string>, sep: char)
    requires forall i :: 0 <= i < |parts| ==> sep !in parts[i]
    ensures sep in Join(parts, sep) <==> |parts| > 1
  {
  }

  /** `t` occurs in `s` as a contiguous block. */
  ghost predicate Contains(s: string, t: string) {
    exists i :: OccursAt(s, t, i)
  }

  /** `t` occurs in `s` starting at index `i`. */
  predicate OccursAt(s: string, t: string, i: int) {
    0 <= i <= |s| - |t| && s[i..i + |t|] == t
  }

  /** Joining the pieces of a split gives back the original string. */
  lemma {:induction false} JoinSplit(s: string, sep: char)
    ensures Join(Split(s, sep), sep) == s
    decreases |s|
  {
    if |s| > 0 {
      var rest := Split(s[1..], sep);
      JoinSplit(s[1..], sep);
      if s[0] == sep {
        assert ([""] + rest)[1..] == rest;
      } else if |rest| > 1 {
        assert ([[s[0]] + rest[0]] + rest[1..])[1..] == rest[1..];
      }
    }
  }

  /** Splitting a string that begins with a separator-free block `a`:
      the block is glued to the first piece of the rest. */
  lemma {:induction false} SplitAfterPlain(a: string, t: string, sep: char)
    requires sep !in a
    ensures Split(a + t, sep) == [a + Split(t, sep)[0]] + Split(t, sep)[1..]
    decreases |a|
  {
    if |a| > 0 {
      assert (a + t)[1..] == a[1..] + t;
      assert (a + t)[0] == a[0];
      SplitAfterPlain(a[1..], t, sep);
      assert [a[0]] + (a[1..] + Split(t, sep)[0]) == a + Split(t, sep)[0];
    } else {
      assert a + t == t;
      assert a + Split(t, sep)[0] == Split(t, sep)[0];
      assert Split(t, sep) == [Split(t, sep)[0]] + Split(t, sep)[1..];
    }
  }

  /** A block followed by a separator splits off as its own piece. */
  lemma SplitFirstPiece(a: string, rest: string, sep: char)
    requires sep !in a
    ensures Split(a + [sep] + rest, sep) == [a] + Split(rest, sep)
  {
    assert a + [sep] + rest == a + ([sep] + rest);
    SplitAfterPlain(a, [sep] + rest, sep);
    assert ([sep] + rest)[1..] == rest;
    assert Split([sep] + rest, sep) == [""] + Split(rest, sep);
    assert a + "" == a;
    assert ([""] + Split(rest, sep))[1..] == Split(rest, sep);
  }

  /** Splitting the join of separator-free pieces gives back the pieces. */
  lemma {:induction false} SplitJoin(parts: seq<string>, sep: char)
    requires |parts| >= 1
    requires forall i :: 0 <= i < |parts| ==> sep !in parts[i]
    ensures Split(Join(parts, sep), sep) == parts
    decreases |parts|
  {
    if |parts| == 1 {
      SplitAfterPlain(parts[0], "", sep);
      assert parts[0] + "" == parts[0];
    } else {
      SplitJoin(parts[1..], sep);
      SplitFirstPiece(parts[0], Join(parts[1..], sep), sep);
      assert [parts[0]] + parts[1..] == parts;
    }
  }

  /** A block placed between two strings occurs in the result. */
  lemma ContainsMiddle(a: string, t: string, b: string)
    ensures Contains(a + t + b, t)
  {
    assert OccursAt(a + t + b, t, |a|);
  }

  /** Occurrence survives extending the string on either side. */
  lemma ContainsExtend(a: string, s: string, b: string, t: string)
    requires Contains(s, t)
    ensures Contains(a + s + b, t)
  {
    var i :| OccursAt(s, t, i);
    assert (a + s + b)[|a| + i..|a| + i + |t|] == s[i..i + |t|];
    assert OccursAt(a + s + b, t, |a| + i);
  }

  /** Each piece of a join occurs in the joined string. */
  lemma {:induction false} JoinContainsPiece(parts: seq<string>, sep: char, k: nat)
    requires k < |parts|
    ensures Contains(Join(parts, sep), parts[k])
    decreases |parts|
  {
    if |parts| == 1 {
      ContainsMiddle("", parts[0], "");
      assert "" + parts[0] + "" == parts[0];
    } else if k == 0 {
      ContainsMiddle("", parts[0], [sep] + Join(parts[1..], sep));
      assert "" + parts[0] + ([sep] + Join(parts[1..], sep)) == Join(parts, sep);
    } else {
      JoinContainsPiece(parts[1..], sep, k - 1);
      ContainsExtend(parts[0] + [sep], Join(parts[1..], sep), "", parts[k]);
      assert parts[0] + [sep] + Join(parts[1..], sep) + "" == Join(parts, sep);
    }
  }

  /** Appending a piece appends a separator and the piece. */
  lemma {:induction false} JoinSnoc(parts: seq<string>, x: string, sep: char)
    requires |parts| >= 1
    ensures Join(parts + [x], sep) == Join(parts, sep) + [sep] + x
    decreases |parts|
  {
    if |parts| == 1 {
      assert parts + [x] == [parts[0], x];
      assert [parts[0], x][1..] == [x];
    } else {
      assert (parts + [x])[1..] == parts[1..] + [x];
      JoinSnoc(parts[1..], x, sep);
    }
  }
}

=== FILE: template.dfy ===
/**
  The two route templates of `genHandlerService` and the part of Go's
  `fmt.Sprintf` they exercise: the explicit argument index `%[n]s` and the
  bare verb `%s`. Only the lines of each template that hold a placeholder are
  kept; the surrounding boilerplate carries no placeholder and is left out.
 */
module Template {
  import opened Strings
  import Names

  /** One element of a format string: literal text, `%[n]s`, or `%s`. */
  datatype Piece = Text(s: string) | Arg(index: nat) | NextArg

  /** A template line, as a run of pieces. */
  type Line = seq<Piece>

  /** The text produced so far and the argument a following bare `%s` takes. */
  datatype Filled = Filled(text: string, next: nat)

  /** Go's rendering of the pieces, `next` being the 0-based argument a bare
      verb consumes. `%[n]s` prints argument n (1-based) and makes argument
      n+1 the next one; a bare `%s` prints the next argument and advances.
      An index outside the argument list prints `%!s(BADINDEX)` and a bare
      verb past the end prints `%!s(MISSING)`, neither moving the cursor. */
  function Fill(ps: Line, args: seq<string>, next: nat): (r: Filled)
    ensures next <= |args| ==> r.next <= |args|
    decreases |ps|
  {
    if |ps| == 0 then Filled("", next)
    else
      var head :=
        match ps[0]
        case Text(s) => Filled(s, next)
        case Arg(n) =>
          if 1 <= n <= |args| then Filled(args[n - 1], n) else Filled("%!s(BADINDEX)", next)
        case NextArg =>
          if next < |args| then Filled(args[next], next + 1) else Filled("%!s(MISSING)", next);
      var tail := Fill(ps[1..], args, head.next);
      Filled(head.text + tail.text, tail.next)
  }

  /** Renders the lines in order, threading the argument cursor across lines. */
  function FillLines(lines: seq<Line>, args: seq<string>, next: nat): (r: seq<string>)
    ensures |r| == |lines|
    decreases |lines|
  {
    if |lines| == 0 then []
    else
      var first := Fill(lines[0], args, next);
      [first.text] + FillLines(lines[1..], args, first.next)
  }

  /** `Sprintf(template, args...)`, the lines separated by newlines. */
  function Sprintf(lines: seq<Line>, args: seq<string>): string {
    Join(FillLines(lines, args, 0), '\n')
  }

  /** The placeholder lines of the handler template (mango.go:32-73);
      argument 1 is the capitalised name, argument 2 the name as given. */
  const HandlerTemplate: seq<Line> := [
    [Text("package "), Arg(2)],
    [Text("type "), Arg(1), Text("Handler struct {")],
    [Text("\t"), Arg(1), Text("Service   "), Arg(1), Text("Service")],
    [Text("func NewHandler(service "), Arg(1), Text("Service) {")],
    [Text("\th := "), Arg(1), Text("Handler{")],
    [Text("\t\tMountAt:     \"/"), Arg(2), Text("\",")],
    [Text("\t\t"), Arg(1), Text("Service:   service,")],
    [Text("\th."), Arg(1), Text("Service.SetupHandler(h.MountAt, f, v, h.Methods)")],
    [Text("func (h *"), Arg(1), Text("Handler) Find() func(w http.ResponseWriter, r *http.Request) {")],
    [Text("\t\th.Response.Data = h."), Arg(1), Text("Service.Get"), Arg(1), Text("()")]
  ]

  /** The placeholder lines of the service template (mango.go:80-97). */
  const ServiceTemplate: seq<Line> := [
    [Text("package "), Arg(2)],
    [Text("type "), Arg(1), Text("Service struct {")],
    [Text("\tnS := "), Arg(1), Text("Service{")],
    [Text("func (s *"), Arg(1), Text("Service) Get"), Arg(1), Text("() string {")],
    [Text("\treturn \"hello world "), NextArg, Text("!\"")]
  ]

  /** The handler artifact for route `rname`. */
  function RenderHandler(rname: string): string {
    Sprintf(HandlerTemplate, [Names.CapitalizeFirst(rname), rname])
  }

  /** The service artifact for route `rname`. */
  function RenderService(rname: string): string {
    Sprintf(ServiceTemplate, [Names.CapitalizeFirst(rname), rname])
  }

  /** Go's argument-index rule: after `%[n]s`, and with only literal text in
      between, a bare `%s` prints argument n+1 rather than the first one. */
  lemma {:induction false} BareVerbAfterIndex(n: nat, mid: Line, args: seq<string>, next: nat)
    requires 1 <= n < |args|
    requires forall i :: 0 <= i < |mid| ==> mid[i].Text?
    ensures Fill([Arg(n)] + mid + [NextArg], args, next).text
         == args[n - 1] + Fill(mid, args, n).text + args[n]
    decreases |mid|
  {
    var ps := [Arg(n)] + mid + [NextArg];
    assert ps[1..] == mid + [NextArg];
    TextsThenBare(mid, args, n);
  }

  /** Literal text leaves the cursor where it is, so a bare verb after it
      prints the argument the cursor points at. */
  lemma {:induction false} TextsThenBare(mid: Line, args: seq<string>, next: nat)
    requires next < |args|
    requires forall i :: 0 <= i < |mid| ==> mid[i].Text?
    ensures Fill(mid + [NextArg], args, next).text == Fill(mid, args, next).text + args[next]
    ensures Fill(mid, args, next).next == next
    decreases |mid|
  {
    if |mid| == 0 {
      assert mid + [NextArg] == [NextArg];
    } else {
      assert (mid + [NextArg])[1..] == mid[1..] + [NextArg];
      TextsThenBare(mid[1..], args, next);
    }
  }

  /** The cursor in force when line `k` starts rendering. */
  function Cursor(lines: seq<Line>, args: seq<string>, next: nat, k: nat): nat
    requires k <= |lines|
    decreases k
  {
    if k == 0 then next
    else Cursor(lines[1..], args, Fill(lines[0], args, next).next, k - 1)
  }

  /** Line `k` of the output is line `k` of the template rendered from the
      cursor the earlier lines left behind. */
  lemma {:induction false} FillLinesAt(lines: seq<Line>, args: seq<string>, next: nat, k: nat)
    requires k < |lines|
    ensures FillLines(lines, args, next)[k] == Fill(lines[k], args, Cursor(lines, args, next, k)).text
    decreases k
  {
    if k > 0 {
      FillLinesAt(lines[1..], args, Fill(lines[0], args, next).next, k - 1);
    }
  }

  /** The cursor before line `k` is the one line `k-1` leaves behind. */
  lemma {:induction false} CursorStep(lines: seq<Line>, args: seq<string>, next: nat, k: nat)
    requires 0 < k <= |lines|
    ensures Cursor(lines, args, next, k) == Fill(lines[k - 1], args, Cursor(lines, args, next, k - 1)).next
    decreases k
  {
    if k > 1 {
      CursorStep(lines[1..], args, Fill(lines[0], args, next).next, k - 1);
    }
  }

  /** A block of a rendered line occurs in the rendered text. */
  lemma LineHole(lines: seq<Line>, args: seq<string>, k: nat, a: string, t: string, b: string)
    requires k < |lines|
    requires Fill(lines[k], args, Cursor(lines, args, 0, k)).text == a + t + b
    ensures Contains(Sprintf(lines, args), t)
  {
    FillLinesAt(lines, args, 0, k);
    JoinContainsPiece(FillLines(lines, args, 0), '\n', k);
    ContainsWithin(FillLines(lines, args, 0)[k], a, t, b, Sprintf(lines, args));
  }

  /** The handler declares package `rname`, a type `<Rname>Handler`, and
      refers to the service type `<Rname>Service` and the mount path `/rname`
      (mango.go:29-32, 41, 44, 51). */
  lemma HandlerHoles(rname: string)
    ensures Contains(RenderHandler(rname), "package " + rname)
    ensures Contains(RenderHandler(rname), Names.CapitalizeFirst(rname) + "Handler")
    ensures Contains(RenderHandler(rname), Names.CapitalizeFirst(rname) + "Service")
    ensures Contains(RenderHandler(rname), "MountAt:     \"/" + rname + "\"")
  {
    var cap := Names.CapitalizeFirst(rname);
    HandlerPackageLine(cap, rname);
    HandlerTypeLine(cap, rname);
    HandlerServiceLine(cap, rname);
    HandlerMountLine(cap, rname);
  }

  lemma HandlerPackageLine(cap: string, rname: string)
    ensures Contains(Sprintf(HandlerTemplate, [cap, rname]), "package " + rname)
  {
    var args := [cap, rname];
    var c := Cursor(HandlerTemplate, args, 0, 0);
    assert Fill(HandlerTemplate[0], args, c).text == "" + ("package " + rname) + "";
    LineHole(HandlerTemplate, args, 0, "", "package " + rname, "");
  }

  lemma HandlerTypeLine(cap: string, rname: string)
    ensures Contains(Sprintf(HandlerTemplate, [cap, rname]), cap + "Handler")
  {
    var args := [cap, rname];
    var c := Cursor(HandlerTemplate, args, 0, 1);
    assert Fill(HandlerTemplate[1], args, c).text == "type " + (cap + "Handler") + " struct {";
    LineHole(HandlerTemplate, args, 1, "type ", cap + "Handler", " struct {");
  }

  lemma HandlerServiceLine(cap: string, rname: string)
    ensures Contains(Sprintf(HandlerTemplate, [cap, rname]), cap + "Service")
  {
    var args := [cap, rname];
    var c := Cursor(HandlerTemplate, args, 0, 3);
    assert Fill(HandlerTemplate[3], args, c).text == "func NewHandler(service " + (cap + "Service") + ") {";
    LineHole(HandlerTemplate, args, 3, "func NewHandler(service ", cap + "Service", ") {");
  }

  lemma HandlerMountLine(cap: string, rname: string)
    ensures Contains(Sprintf(HandlerTemplate, [cap, rname]), "MountAt:     \"/" + rname + "\"")
  {
    var p, q := "\t\tMountAt:     \"/", "\",";
    var a, t, b := "\t\t", "MountAt:     \"/" + rname + "\"", ",";
    assert p + rname + q == a + t + b by {
      assert p == a + "MountAt:     \"/" && q == "\"" + b;
    }
    var args := [cap, rname];
    var c := Cursor(HandlerTemplate, args, 0, 5);
    assert HandlerTemplate[5] == [Text(p), Arg(2), Text(q)];
    Surrounded(p, 2, q, args, c);
    LineHole(HandlerTemplate, args, 5, a, t, b);
  }

  /** A placeholder between two literals renders its argument between them,
      whatever the cursor. */
  lemma Surrounded(p: string, n: nat, q: string, args: seq<string>, next: nat)
    requires 1 <= n <= |args|
    ensures Fill([Text(p), Arg(n), Text(q)], args, next).text == p + args[n - 1] + q
  {
    var ps := [Text(p), Arg(n), Text(q)];
    assert ps[1..] == [Arg(n), Text(q)];
    assert [Arg(n), Text(q)][1..] == [Text(q)];
    assert [Text(q)][1..] == [];
    assert Fill([Text(q)], args, n).text == q;
    assert Fill([Arg(n), Text(q)], args, next).text == args[n - 1] + q;
    assert Fill(ps, args, next).text == p + (args[n - 1] + q);
  }

  /** The service declares package `rname`, the type `<Rname>Service` the
      handler refers to, and its getter returns "hello world <rname>!": the
      bare `%s` follows `%[1]s`, so it takes argument 2, the name as given
      (mango.go:79-80, 84, 96-97). */
  lemma ServiceHoles(rname: string)
    ensures Contains(RenderService(rname), "package " + rname)
    ensures Contains(RenderService(rname), Names.CapitalizeFirst(rname) + "Service")
    ensures Contains(RenderService(rname), "hello world " + rname + "!")
  {
    var cap := Names.CapitalizeFirst(rname);
    ServicePackageLine(cap, rname);
    ServiceTypeLine(cap, rname);
    ServiceGreetingLine(cap, rname);
  }

  lemma ServicePackageLine(cap: string, rname: string)
    ensures Contains(Sprintf(ServiceTemplate, [cap, rname]), "package " + rname)
  {
    var args := [cap, rname];
    var c := Cursor(ServiceTemplate, args, 0, 0);
    assert Fill(ServiceTemplate[0], args, c).text == "" + ("package " + rname) + "";
    LineHole(ServiceTemplate, args, 0, "", "package " + rname, "");
  }

  lemma ServiceTypeLine(cap: string, rname: string)
    ensures Contains(Sprintf(ServiceTemplate, [cap, rname]), cap + "Service")
  {
    var args := [cap, rname];
    var c := Cursor(ServiceTemplate, args, 0, 1);
    assert Fill(ServiceTemplate[1], args, c).text == "type " + (cap + "Service") + " struct {";
    LineHole(ServiceTemplate, args, 1, "type ", cap + "Service", " struct {");
  }

  /** The line before the greeting leaves the cursor on argument 2. */
  lemma GreetingCursor(cap: string, rname: string)
    ensures Cursor(ServiceTemplate, [cap, rname], 0, 4) == 1
  {
    var args := [cap, rname];
    CursorStep(ServiceTemplate, args, 0, 4);
    var c3 := Cursor(ServiceTemplate, args, 0, 3);
    assert Fill(ServiceTemplate[3], args, c3).next == 1;
  }

  /** The bare `%s` of the greeting line takes argument 2, because the
      line before it ends its placeholders with `%[1]s`. */
  lemma ServiceGreetingLine(cap: string, rname: string)
    ensures Contains(Sprintf(ServiceTemplate, [cap, rname]), "hello world " + rname + "!")
  {
    var args := [cap, rname];
    GreetingCursor(cap, rname);
    var text := Fill(ServiceTemplate[4], args, 1).text;
    assert text == "\treturn \"hello world " + rname + "!\"";
    assert "\treturn \"hello world " == "\treturn \"" + "hello world ";
    assert "!\"" == "!" + "\"";
    assert text == "\treturn \"" + ("hello world " + rname + "!") + "\"";
    LineHole(ServiceTemplate, args, 4, "\treturn \"", "hello world " + rname + "!", "\"");
  }

  /** Occurrence is transitive: a block of a line found in a text is found in the text. */
  lemma ContainsWithin(line: string, a: string, t: string, b: string, text: string)
    requires line == a + t + b
    requires Contains(text, line)
    ensures Contains(text, t)
  {
    var i :| OccursAt(text, line, i);
    forall k | 0 <= k < |t|
      ensures text[i + |a| + k] == t[k]
    {
      assert text[i..i + |line|][|a| + k] == line[|a| + k];
      assert line[|a| + k] == (a + t + b)[|a| + k];
    }
    assert text[i + |a|..i + |a| + |t|] == t;
    assert OccursAt(text, t, i + |a|);
  }
}

=== FILE: wrappers.dfy ===
/** Optional values, used wherever the program may skip or reject an input. */
module Wrappers {

  /** A value that may be absent: `None` when the program skips the input. */
  datatype Option<+T> = None | Some(value: T)
}
